=== FILE: README.md ===
# Weekly start/stop scheduler — Dafny model

This project models the schedule engine of `FM.Scheduler.Scheduler`, a
Crestron SIMPL# helper that fires a "start" and a "stop" action at
configured weekly times. The scheduler owns two `SchedulerEvent`
records, start (index 0) and stop (index 1). Each record holds a
Monday-first mask of seven days and a `uint` hour and minute. The model
has five parts:

- **Editor** (`editor.dfy`, `counters.dfy`). A pressed touch-panel join,
  less the button offset, selects one of 22 buttons. The buttons toggle a
  day or step an hour or a minute of one event. The steps wrap through
  `uint` overflow and the "> limit" reset.
- **Evaluator** (`evaluator.dfy`). The once-a-minute `TimerCheck` remaps
  .NET's Sunday-first `DayOfWeek` to a Monday-first index. It then
  decides which events match the current day, hour and minute, and which
  callbacks run.
- **Feedback text** (`feedback.dfy`). This is the "H:MM" time string
  sent to the panel.
- **Timer control** (`timer.dfy`). `Start` and `Stop` form a small state
  machine over the polling timer.
- **The scheduler value** (`scheduler.dfy`). This covers construction,
  `Load`, `SetCallbacks` and a panel press, all on an immutable record.

Every piece is written as a pure function. The current time and the
pressed join are parameters. C# `uint` is the newtype `Events.uint32`,
and its wrap-around is written out as arithmetic modulo 2^32.

In three places the model follows the code where a reader might expect
modular or idempotent behaviour:

- **Out-of-range time values.** An hour or minute above its limit (for
  example one loaded from a file) goes to 0 on an increment and to the
  limit on a decrement. It does not go to the value modulo 24 or 60.
- **Stop on a stopped timer.** `Stop` returns true whenever a timer
  object exists, even if that timer is already stopped. It returns false
  only when no timer was ever created.
- **Missing actions.** An action that was never set is not a no-op:
  `TimerCheck` invokes it anyway (see Findings).

## Model

| member | source | states |
|---|---|---|
| Counters.Inc32 | Scheduler/Scheduler.cs:342 | `++` on a `uint` gives the successor, and 2^32−1 wraps to 0 |
| Counters.Dec32 | Scheduler/Scheduler.cs:349 | `--` on a `uint` gives the predecessor, and 0 wraps to 2^32−1 |
| Counters.Increase | Scheduler/Scheduler.cs:340-346 | an increase button always leaves a value ≤ the limit: a value below the limit goes up by one, and the limit or anything above it (an out-of-range loaded value, 2^32−1) goes to 0 |
| Counters.Decrease | Scheduler/Scheduler.cs:347-353 | a decrease button always leaves a value ≤ the limit: 1..limit+1 go down by one, and 0 (through unsigned underflow) or anything above limit+1 goes to the limit |
| Counters.IncreaseIsModular | Scheduler/Scheduler.cs:340-346 | on 0..limit an increase is exactly (v+1) mod (limit+1), so 23→0 for hours and 59→0 for minutes |
| Counters.DecreaseIsModular | Scheduler/Scheduler.cs:347-353 | on 0..limit a decrease is exactly (v−1) mod (limit+1), so 0→23 for hours and 0→59 for minutes |
| Counters.DecreaseUndoesIncrease | Scheduler/Scheduler.cs:340-353 | on in-range values a decrease undoes an increase |
| Counters.IncreaseUndoesDecrease | Scheduler/Scheduler.cs:340-353 | on in-range values an increase undoes a decrease |
| Counters.IncreaseTimesIsModular | Scheduler/Scheduler.cs:340-346 | n presses of an increase button from an in-range value give (v+n) mod (limit+1) |
| Counters.DecreaseTimesIsModular | Scheduler/Scheduler.cs:347-353 | n presses of a decrease button from an in-range value give (v−n) mod (limit+1) |
| Counters.FullCycleIsIdentity | Scheduler/Scheduler.cs:340-395 | 24 hour presses or 60 minute presses in one direction return to the starting value |
| Editor.ButtonNumber | Scheduler/Scheduler.cs:326 | the button is the join number minus the offset, plus 2^32 when the join is below the offset |
| Editor.PanelJoin | Scheduler/Scheduler.cs:250 | the panel join of a button is the button plus the offset, truncated to 32 bits |
| Editor.ButtonNumberOfPanelJoin | Scheduler/Scheduler.cs:326 | for every offset, subtracting the offset from a button's panel join gives the button back |
| Editor.ButtonOf | Scheduler/Scheduler.cs:24-48 | every edit command is bound to one of buttons 1..22 |
| Editor.Decode | Scheduler/Scheduler.cs:328-396 | a button selects an edit exactly when it is in 1..22; 0 and everything above 22 select nothing |
| Editor.DecodeButtonOf | Scheduler/Scheduler.cs:24-48 | each command's button decodes to that same command (1..7 toggle start day button−1, 12..18 toggle stop day button−12, 8..11 and 19..22 step the start or stop hour or minute) |
| Editor.ButtonOfDecode | Scheduler/Scheduler.cs:328-396 | decoding is injective: a decoded button is the button bound to its command |
| Editor.EditEvent | Scheduler/Scheduler.cs:328-395 | a day toggle flips exactly that day and keeps the other days and the time; an hour-up or hour-down step sets the hour to `Counters.Increase` or `Counters.Decrease` of the old hour with limit 23, keeping the days and minute; a minute step does the same to the minute with limit 59, keeping the days and hour; either way the result is in range, whatever the starting value |
| Editor.Apply | Scheduler/Scheduler.cs:328-395 | an edit changes only the event it addresses; the other event is unchanged |
| Editor.SigChange | Scheduler/Scheduler.cs:321-400 | only a rising digital signal edits; a button outside 1..22 after subtracting the offset leaves both events unchanged; otherwise the decoded edit is applied |
| Editor.PressPerformsCommand | Scheduler/Scheduler.cs:321-400 | pressing the panel join that carries a command performs exactly that command, for every offset |
| Editor.ApplyPreservesValid | Scheduler/Scheduler.cs:340-395 | every edit keeps hours ≤ 23 and minutes ≤ 59 |
| Editor.SigChangePreservesValid | Scheduler/Scheduler.cs:324-396 | whatever signal arrives, a schedule with in-range times keeps them in range |
| Editor.ToggleTwiceRestores | Scheduler/Scheduler.cs:328-337 | pressing the same day button twice restores the whole schedule |
| Editor.StepsAreModular | Scheduler/Scheduler.cs:340-395 | on a valid schedule, hour up gives (h+1) mod 24, hour down (h+23) mod 24, minute up (m+1) mod 60 and minute down (m+59) mod 60, on the addressed event |
| Editor.HourStepsAreInverse | Scheduler/Scheduler.cs:340-381 | on a valid schedule, hour up then down (and down then up) on either event restores the schedule |
| Editor.MinuteStepsAreInverse | Scheduler/Scheduler.cs:354-395 | on a valid schedule, minute up then down (and down then up) on either event restores the schedule |
| Evaluator.MondayFirst | Scheduler/Scheduler.cs:279-283 | the remapped index i is the Monday-first day of the .NET day d: (i+1) mod 7 = d |
| Evaluator.SundayFirst | Scheduler/Scheduler.cs:279-283 | every Monday-first index is reached by remapping some .NET day |
| Evaluator.MondayFirstIsBijective | Scheduler/Scheduler.cs:279-283 | the remap is a bijection of the week: Sunday→6, Monday→0, Saturday→5 |
| Evaluator.Evaluate | Scheduler/Scheduler.cs:287-311 | start fires iff start is active on day (d+6) mod 7 and its hour and minute equal the clock's; stop fires by the same rule, checked on its own |
| Evaluator.FiresAtConfiguredMoment | Scheduler/Scheduler.cs:288-298 | an event fires at its own hour and minute on every day it is active on |
| Evaluator.FiresInOneMinutePerDay | Scheduler/Scheduler.cs:287-311 | on any one day an event matches in at most one minute |
| Evaluator.EventsFireIndependently | Scheduler/Scheduler.cs:300-311 | changing one event never changes whether the other fires |
| Evaluator.BothMayFire | Scheduler/Scheduler.cs:287-311 | start and stop configured alike both fire in the same pass |
| Evaluator.NoDaysNeverFires | Scheduler/Scheduler.cs:288 | with no active day, nothing fires, whatever the clock says |
| Evaluator.ToggleMovesFiringOfThatDay | Scheduler/Scheduler.cs:328-337 | toggling day d changes no pass on another day, and on day d it switches the event's firing at its own time |
| Evaluator.Tick | Scheduler/Scheduler.cs:287-311 | a pass runs an action iff its event fires and the action is set, start before stop, never failing (corrected behaviour) |
| Evaluator.TickAsWritten | Scheduler/Scheduler.cs:293-310 | the pass as written fails iff a firing event has no action; a firing start with no action ends the pass before stop is checked; a firing stop with no action fails after start has run (if it fired); a completed pass runs exactly the corrected pass's actions |
| Evaluator.TickAsWrittenAgreesWhenRegistered | Scheduler/Scheduler.cs:142-146 | once both actions are set, the pass as written runs exactly the corrected pass's actions |
| Evaluator.NullStartActionSkipsStop | Scheduler/Scheduler.cs:296 | counterexample: with only a stop action set and both events matching, the pass as written fails with nothing run, and the corrected pass runs stop |
| Feedback.DecimalString | Scheduler/Scheduler.cs:259 | the `{0}` rendering is a non-empty string of digits with no leading zero, one character exactly for values below 10 |
| Feedback.DecimalRoundTrip | Scheduler/Scheduler.cs:259 | the digits read back as the number rendered |
| Feedback.Padded2 | Scheduler/Scheduler.cs:259 | the `{0:D2}` rendering has at least two digits, exactly two below 100, no leading zero when longer than two, and reads back as the number |
| Feedback.TimeText | Scheduler/Scheduler.cs:259 | the time text has the colon third from the end whenever the minute is below 100, and the hour is unpadded: a leading "0" is the hour 0 itself, and a valid time renders in exactly 4 characters for hours below 10 and 5 otherwise; with `TimeTextRoundTrip` this fixes every valid time's text |
| Feedback.TimeTextRoundTrip | Scheduler/Scheduler.cs:259 | parsing the "H:MM" text gives back the event's hour and minute |
| Feedback.TimeTextInjective | Scheduler/Scheduler.cs:264 | two different times never render as the same text |
| Feedback.TimeTextExamples | Scheduler/Scheduler.cs:259 | 6:05 renders as "6:05", 23:00 as "23:00", 23:59 as "23:59" and 0:00 as "0:00" |
| Feedback.SerialFeedbackAsWritten | Scheduler/Scheduler.cs:258-266 | as written, both time texts go to join 1+offset, and the stop text, written last, is what that join shows |
| Feedback.StartTextIsOverwritten | Scheduler/Scheduler.cs:53-54 | as written, a start time that differs from the stop time is shown on no join at all |
| Feedback.SerialFeedback | Scheduler/Scheduler.cs:258-266 | with the stop text on its own join, the two joins differ, the start join shows exactly the start event's `TimeText` and the stop join the stop event's, and each parses back to its own event's time (corrected behaviour) |
| TimerControl.Start | Scheduler/Scheduler.cs:108-123 | `Start` always returns true and leaves a running timer; it constructs a timer iff none existed |
| TimerControl.Stop | Scheduler/Scheduler.cs:129-140 | `Stop` returns true iff a timer exists, then leaves it stopped; with no timer it changes nothing; it never constructs one |
| TimerControl.TimerPersists | Scheduler/Scheduler.cs:118-121 | once a timer exists, no sequence of calls discards it |
| TimerControl.TimerExistsIffStarted | Scheduler/Scheduler.cs:110-117 | from no timer, a timer exists iff `Start` was called |
| TimerControl.AtMostOneTimer | Scheduler/Scheduler.cs:108-123 | any sequence of `Start`/`Stop` calls constructs at most one timer, and none when one already existed |
| TimerControl.StopFailsIffNeverStarted | Scheduler/Scheduler.cs:129-140 | from no timer, a `Stop` returns false iff no `Start` came before it |
| TimerControl.RunningIffLastStarted | Scheduler/Scheduler.cs:108-140 | after at least one call, the timer runs iff the last call was `Start` |
| TimerControl.StartIsIdempotent | Scheduler/Scheduler.cs:118-122 | a second `Start` leaves the same state and constructs nothing |
| Facade.Load | Scheduler/Scheduler.cs:151-169 | `Load` returns true iff the file was read and parsed; only then is the pair replaced, and a failure leaves the scheduler unchanged |
| Facade.Init | Scheduler/Scheduler.cs:205-227 | after construction the timer is running and no action is set; the events are the loaded pair, or all days off at 0:00 when loading failed |
| Facade.SetCallbacks | Scheduler/Scheduler.cs:142-146 | `SetCallbacks` sets both actions and nothing else |
| Facade.Press | Scheduler/Scheduler.cs:321-400 | a panel signal edits the schedule exactly as `Editor.SigChange` does, never touches the timer or the actions, and keeps valid times valid |
| Facade.InitWithoutFileIsQuiet | Scheduler/Scheduler.cs:213-226 | a scheduler constructed without a file has valid times and fires nothing at any moment |
| Facade.FirstPassAfterInitMayFault | Scheduler/Scheduler.cs:205-227 | the timer's first pass is due at once and can run before any action is set; in that state a loaded start event matching the moment makes the pass as written fail |
| Facade.FirstPassAfterInitIsSilent | Scheduler/Scheduler.cs:205-227 | with absent actions treated as no-ops, the first pass after construction runs nothing |

## Findings

| source | as written | input that shows it | evidently intended | confidence | as-written member | corrected member |
|---|---|---|---|---|---|---|
| Scheduler/Scheduler.cs:296 | `TimerCheck` calls `StartMethod()` and `StopMethod()` with no null check. Both are null until `SetCallbacks`, and `Init` starts the timer, with its first pass due at once, before that call is possible | both events active on Monday at 6:30, only a stop action set, pass on Monday at 6:30: the null start action throws and the stop action never runs (`Evaluator.NullStartActionSkipsStop`, `Facade.FirstPassAfterInitMayFault`) | an action that is not set is skipped, and the stop check still runs | not executed; high | Evaluator.TickAsWritten | Evaluator.Tick |
| Scheduler/Scheduler.cs:53-54 | `SerialJoins.StartText` and `SerialJoins.StopText` are both 1, so the stop time text overwrites the start time text on the same join | start at 6:30 and stop at 18:00: join 1+offset shows "18:00" and "6:30" is shown nowhere (`Feedback.StartTextIsOverwritten`) | the stop text goes to a join of its own (2) | not executed; medium | Feedback.SerialFeedbackAsWritten | Feedback.SerialFeedback |

## Left out

- `Save` and the file side of `Load` (Scheduler/Scheduler.cs:151-195) are left out. They are file I/O plus Newtonsoft JSON, which are foreign calls. `Load` takes the outcome of reading and parsing as a parameter. The save/load round trip is a property of the serializer, so it is not stated.
- Facade.Load: the `read` parameter always carries two well-formed events. A document that deserializes to `null`, to an array of another length, or to day masks of another length is outside the model. The source accepts all of these. With `null` or fewer than two events, the next rising press or timer pass throws. With fewer than seven days, the next rising press throws in the feedback loop, and a timer pass throws on the days past the mask's end. Longer arrays act only through their first two events and first seven days.
- Day masks are seven-element sequences (`Events.DayMask`), so a loaded mask of another length cannot be represented. Hours and minutes may hold any `uint`, so an out-of-range loaded time is modelled.
- The panel is left out: `UI.SetDigitalJoin`, `UI.SetSerialJoin`, the event wiring, `panel_OnlineStatusChange` and `RefreshUI`. The model keeps the time text, the join arithmetic and the final state of the serial joins. The seven-per-event digital day feedback is not modelled beyond its join number (`Editor.PanelJoin`).
- `CTimer`, its 60-second period and `DateTime.Now` are left out. The timer is the abstract state `TimerControl.Timer`, and the clock reading is the `(DayOfWeek, hour, minute)` parameters of `Evaluator.Evaluate`.
- TimerControl.Start: the branch where the `CTimer` constructor yields null is unreachable in C#, so `Start` always returns true.
- TimerControl.Start: `CTimer.Reset()` on a stopped timer is taken to make it run again.
- The callback actions are left out. Each one is just "set or null" (`Evaluator.Callbacks`), and a pass returns the actions it runs.
- `Trace`, `TraceEnabled`, `TraceName`, `debug_enable` and console output are left out. They are logging only.
- Concurrency between the panel thread and the timer thread is left out. Each operation is one atomic step.
- The root `Scheduler.cs` is left out. It only repeats the button numbers as constants, with no behaviour.
- Repeated matches within one minute are not deduplicated. The source does not deduplicate them either; it relies on the 60-second period.

=== FILE: counters.dfy ===
/**
  The bounded counters behind the hour and minute buttons. The source
  increments or decrements a `uint` field in place, letting it wrap at
  2^32, and then resets any value above the limit: to 0 after an
  increment, to the limit after a decrement.
 */
module Counters {
  import opened Events

  /** `v++` on a `uint`. */
  function Inc32(v: uint32): (r: uint32)
    ensures r as int == if v as int == TWO_TO_32 - 1 then 0 else v as int + 1
  {
    ((v as int + 1) % TWO_TO_32) as uint32
  }

  /** `v--` on a `uint`. */
  function Dec32(v: uint32): (r: uint32)
    ensures r as int == if v == 0 then TWO_TO_32 - 1 else v as int - 1
  {
    ((v as int - 1) % TWO_TO_32) as uint32
  }

  /** An increase button: step up, then reset to 0 when above `max`. */
  function Increase(v: uint32, max: uint32): (r: uint32)
    ensures r <= max
    ensures v < max ==> r == v + 1
    ensures max <= v ==> r == 0
  {
    var w := Inc32(v);
    if w > max then 0 else w
  }

  /** A decrease button: step down, then reset to `max` when above it. */
  function Decrease(v: uint32, max: uint32): (r: uint32)
    ensures r <= max
    ensures 0 < v as int <= max as int + 1 ==> r as int == v as int - 1
    ensures v == 0 || max as int + 1 < v as int ==> r == max
  {
    var w := Dec32(v);
    if w > max then max else w
  }

  /** Euclidean remainder is determined by any quotient/remainder split. */
  lemma ModUnique(a: int, m: int, q: int, r: int)
    requires m > 0 && 0 <= r < m && a == q * m + r
    ensures a % m == r
  {
    var q0, r0 := a / m, a % m;
    var k := q0 - q;
    assert k * m == r - r0 by {
      assert q0 * m - q * m == k * m;
    }
  }

  /** On in-range values an increase is the successor modulo `max + 1`. */
  lemma IncreaseIsModular(v: uint32, max: uint32)
    requires v <= max
    ensures Increase(v, max) as int == (v as int + 1) % (max as int + 1)
  {
    var m := max as int + 1;
    if v < max {
      ModUnique(v as int + 1, m, 0, v as int + 1);
    } else {
      ModUnique(v as int + 1, m, 1, 0);
    }
  }

  /** On in-range values a decrease is the predecessor modulo `max + 1`. */
  lemma DecreaseIsModular(v: uint32, max: uint32)
    requires v <= max
    ensures Decrease(v, max) as int == (v as int - 1 + max as int + 1) % (max as int + 1)
  {
    var m := max as int + 1;
    if v == 0 {
      ModUnique(v as int - 1 + m, m, 0, max as int);
    } else {
      ModUnique(v as int - 1 + m, m, 1, v as int - 1);
    }
  }

  /** Decrease undoes Increase on in-range values. */
  lemma DecreaseUndoesIncrease(v: uint32, max: uint32)
    requires v <= max
    ensures Decrease(Increase(v, max), max) == v
  {
  }

  /** Increase undoes Decrease on in-range values. */
  lemma IncreaseUndoesDecrease(v: uint32, max: uint32)
    requires v <= max
    ensures Increase(Decrease(v, max), max) == v
  {
  }

  /** The value after `n` presses of an increase button. */
  function IncreaseTimes(v: uint32, max: uint32, n: nat): (r: uint32)
    ensures n > 0 ==> r <= max
  {
    if n == 0 then v else Increase(IncreaseTimes(v, max, n - 1), max)
  }

  /** The value after `n` presses of a decrease button. */
  function DecreaseTimes(v: uint32, max: uint32, n: nat): (r: uint32)
    ensures n > 0 ==> r <= max
  {
    if n == 0 then v else Decrease(DecreaseTimes(v, max, n - 1), max)
  }

  lemma ModSucc(a: int, m: int)
    requires m > 0
    ensures (a % m + 1) % m == (a + 1) % m
  {
    var q, r := a / m, a % m;
    if r + 1 < m {
      ModUnique(r + 1, m, 0, r + 1);
      ModUnique(a + 1, m, q, r + 1);
    } else {
      ModUnique(r + 1, m, 1, 0);
      ModUnique(a + 1, m, q + 1, 0);
    }
  }

  lemma ModPred(a: int, m: int)
    requires m > 0
    ensures (a % m - 1 + m) % m == (a - 1) % m
  {
    var q, r := a / m, a % m;
    if r == 0 {
      ModUnique(r - 1 + m, m, 0, m - 1);
      ModUnique(a - 1, m, q - 1, m - 1);
    } else {
      ModUnique(r - 1 + m, m, 1, r - 1);
      ModUnique(a - 1, m, q, r - 1);
    }
  }

  lemma StepForward(p: int, r: int, a: int, m: int)
    requires m > 0 && p == a % m && r == (p + 1) % m
    ensures r == (a + 1) % m
  {
    ModSucc(a, m);
  }

  lemma StepBackward(p: int, r: int, a: int, m: int)
    requires m > 0 && p == a % m && r == (p - 1 + m) % m
    ensures r == (a - 1) % m
  {
    ModPred(a, m);
  }

  /** `n` presses of an increase button count forward modulo `max + 1`. */
  lemma {:induction false} IncreaseTimesIsModular(v: uint32, max: uint32, n: nat)
    requires v <= max
    ensures IncreaseTimes(v, max, n) as int == (v as int + n) % (max as int + 1)
  {
    if n > 0 {
      IncreaseTimesIsModular(v, max, n - 1);
      var prev := IncreaseTimes(v, max, n - 1);
      assert prev <= max by {
        if n - 1 == 0 { }
      }
      IncreaseIsModular(prev, max);
      StepForward(prev as int, Increase(prev, max) as int, v as int + n - 1, max as int + 1);
    } else {
      ModUnique(v as int, max as int + 1, 0, v as int);
    }
  }

  /** `n` presses of a decrease button count backward modulo `max + 1`. */
  lemma {:induction false} DecreaseTimesIsModular(v: uint32, max: uint32, n: nat)
    requires v <= max
    ensures DecreaseTimes(v, max, n) as int == (v as int - n) % (max as int + 1)
  {
    if n > 0 {
      DecreaseTimesIsModular(v, max, n - 1);
      var prev := DecreaseTimes(v, max, n - 1);
      assert prev <= max by {
        if n - 1 == 0 { }
      }
      DecreaseIsModular(prev, max);
      StepBackward(prev as int, Decrease(prev, max) as int, v as int - (n - 1), max as int + 1);
    } else {
      ModUnique(v as int, max as int + 1, 0, v as int);
    }
  }

  /** A full cycle of presses (24 for hours, 60 for minutes) is the identity. */
  lemma FullCycleIsIdentity(v: uint32, max: uint32)
    requires v <= max
    ensures IncreaseTimes(v, max, max as int + 1) == v
    ensures DecreaseTimes(v, max, max as int + 1) == v
  {
    IncreaseTimesIsModular(v, max, max as int + 1);
    DecreaseTimesIsModular(v, max, max as int + 1);
    ModUnique(v as int + max as int + 1, max as int + 1, 1, v as int);
    ModUnique(v as int - (max as int + 1), max as int + 1, -1, v as int);
  }
}

=== FILE: editor.dfy ===
/**
  The edit path of `panel_SigChange`: a pressed digital join, less the
  panel's button offset, selects one of 22 buttons; buttons 1..7 and
  12..18 toggle a start or stop day, the other eight step an hour or a
  minute of one event. Every other button number changes nothing.
 */
module Editor {
  import opened Wrappers
  import opened Events
  import Counters

  // The `DigitalJoins` button map.
  const START_DAY_MONDAY: uint32 := 1
  const START_DAY_SUNDAY: uint32 := 7
  const START_HOUR_INCREASE: uint32 := 8
  const START_HOUR_DECREASE: uint32 := 9
  const START_MINUTE_INCREASE: uint32 := 10
  const START_MINUTE_DECREASE: uint32 := 11
  const STOP_DAY_MONDAY: uint32 := 12
  const STOP_DAY_SUNDAY: uint32 := 18
  const STOP_HOUR_INCREASE: uint32 := 19
  const STOP_HOUR_DECREASE: uint32 := 20
  const STOP_MINUTE_INCREASE: uint32 := 21
  const STOP_MINUTE_DECREASE: uint32 := 22

  /** The edits a button can ask for. */
  datatype Command =
    | ToggleDay(which: Which, day: DayIndex)
    | HourUp(which: Which)
    | HourDown(which: Which)
    | MinuteUp(which: Which)
    | MinuteDown(which: Which)

  /** The change notification the panel delivers for one join. */
  datatype Sig = Sig(isBool: bool, boolValue: bool, number: uint32)

  /** `args.Sig.Number - buttonOffset` in `uint` arithmetic. */
  function ButtonNumber(number: uint32, offset: uint32): (b: uint32)
    ensures offset <= number ==> b == number - offset
    ensures number < offset ==> b as int == number as int + TWO_TO_32 - offset as int
  {
    ((number as int - offset as int) % TWO_TO_32) as uint32
  }

  /** `(uint)(join + buttonOffset)`: the panel join that carries button `b`. */
  function PanelJoin(b: uint32, offset: uint32): (j: uint32)
    ensures b as int + offset as int < TWO_TO_32 ==> j as int == b as int + offset as int
  {
    ((b as int + offset as int) % TWO_TO_32) as uint32
  }

  /** A press on the join `PanelJoin(b, offset)` is read back as button `b`, for every offset. */
  lemma ButtonNumberOfPanelJoin(b: uint32, offset: uint32)
    ensures ButtonNumber(PanelJoin(b, offset), offset) == b
  {
    if b as int + offset as int >= TWO_TO_32 {
      assert PanelJoin(b, offset) as int == b as int + offset as int - TWO_TO_32;
    }
  }

  /** The button a command is bound to. */
  function ButtonOf(c: Command): (b: uint32)
    ensures 1 <= b <= 22
  {
    match c
    case ToggleDay(w, d) => if w.Start? then START_DAY_MONDAY + d as uint32 else STOP_DAY_MONDAY + d as uint32
    case HourUp(w) => if w.Start? then START_HOUR_INCREASE else STOP_HOUR_INCREASE
    case HourDown(w) => if w.Start? then START_HOUR_DECREASE else STOP_HOUR_DECREASE
    case MinuteUp(w) => if w.Start? then START_MINUTE_INCREASE else STOP_MINUTE_INCREASE
    case MinuteDown(w) => if w.Start? then START_MINUTE_DECREASE else STOP_MINUTE_DECREASE
  }

  /** The button dispatch of `panel_SigChange`: the day ranges first, then the switch. */
  function Decode(b: uint32): (r: Option<Command>)
    ensures r.None? <==> b == 0 || 22 < b
  {
    if START_DAY_MONDAY <= b <= START_DAY_SUNDAY then Some(ToggleDay(Start, (b - START_DAY_MONDAY) as int))
    else if STOP_DAY_MONDAY <= b <= STOP_DAY_SUNDAY then Some(ToggleDay(Stop, (b - STOP_DAY_MONDAY) as int))
    else if b == START_HOUR_INCREASE then Some(HourUp(Start))
    else if b == START_HOUR_DECREASE then Some(HourDown(Start))
    else if b == START_MINUTE_INCREASE then Some(MinuteUp(Start))
    else if b == START_MINUTE_DECREASE then Some(MinuteDown(Start))
    else if b == STOP_HOUR_INCREASE then Some(HourUp(Stop))
    else if b == STOP_HOUR_DECREASE then Some(HourDown(Stop))
    else if b == STOP_MINUTE_INCREASE then Some(MinuteUp(Stop))
    else if b == STOP_MINUTE_DECREASE then Some(MinuteDown(Stop))
    else None
  }

  /** Every command's button decodes back to that command. */
  lemma DecodeButtonOf(c: Command)
    ensures Decode(ButtonOf(c)) == Some(c)
  {
  }

  /** Decoding is injective: a decoded button is the one bound to its command. */
  lemma ButtonOfDecode(b: uint32)
    requires Decode(b).Some?
    ensures ButtonOf(Decode(b).value) == b
  {
  }

  /** One edit of one event. */
  function EditEvent(e: Event, c: Command): (r: Event)
    ensures c.ToggleDay? ==> r.hour == e.hour && r.minute == e.minute
    ensures c.ToggleDay? ==> r.days[c.day] == !e.days[c.day]
    ensures c.ToggleDay? ==> forall i :: 0 <= i < LIMIT_DAYS && i != c.day ==> r.days[i] == e.days[i]
    ensures (c.HourUp? || c.HourDown?) ==> r.days == e.days && r.minute == e.minute && r.hour <= LIMIT_HOUR_MAX
    ensures (c.MinuteUp? || c.MinuteDown?) ==> r.days == e.days && r.hour == e.hour && r.minute <= LIMIT_MINUTE_MAX
    ensures c.HourUp? ==> r.hour == Counters.Increase(e.hour, LIMIT_HOUR_MAX)
    ensures c.HourDown? ==> r.hour == Counters.Decrease(e.hour, LIMIT_HOUR_MAX)
    ensures c.MinuteUp? ==> r.minute == Counters.Increase(e.minute, LIMIT_MINUTE_MAX)
    ensures c.MinuteDown? ==> r.minute == Counters.Decrease(e.minute, LIMIT_MINUTE_MAX)
  {
    match c
    case ToggleDay(_, d) => e.(days := e.days[d := !e.days[d]])
    case HourUp(_) => e.(hour := Counters.Increase(e.hour, LIMIT_HOUR_MAX))
    case HourDown(_) => e.(hour := Counters.Decrease(e.hour, LIMIT_HOUR_MAX))
    case MinuteUp(_) => e.(minute := Counters.Increase(e.minute, LIMIT_MINUTE_MAX))
    case MinuteDown(_) => e.(minute := Counters.Decrease(e.minute, LIMIT_MINUTE_MAX))
  }

  /** A command changes only the event it addresses. */
  function Apply(s: Schedule, c: Command): (r: Schedule)
    ensures r.Get(c.which.Other()) == s.Get(c.which.Other())
    ensures r.Get(c.which) == EditEvent(s.Get(c.which), c)
  {
    s.Set(c.which, EditEvent(s.Get(c.which), c))
  }

  /** `panel_SigChange`: only a rising digital signal on a mapped button edits the schedule. */
  function SigChange(s: Schedule, sig: Sig, offset: uint32): (r: Schedule)
    ensures !(sig.isBool && sig.boolValue) ==> r == s
    ensures var b := ButtonNumber(sig.number, offset);
      sig.isBool && sig.boolValue && 1 <= b <= 22 ==> r == Apply(s, Decode(b).value)
    ensures var b := ButtonNumber(sig.number, offset);
      b == 0 || 22 < b ==> r == s
  {
    if sig.isBool && sig.boolValue then
      match Decode(ButtonNumber(sig.number, offset))
      case Some(c) => Apply(s, c)
      case None => s
    else
      s
  }

  /** A press on the join the panel shows for a command performs exactly that command. */
  lemma PressPerformsCommand(s: Schedule, c: Command, offset: uint32)
    ensures SigChange(s, Sig(true, true, PanelJoin(ButtonOf(c), offset)), offset) == Apply(s, c)
  {
    ButtonNumberOfPanelJoin(ButtonOf(c), offset);
    DecodeButtonOf(c);
  }

  /** Every edit keeps a valid schedule valid; a time edit repairs its own field. */
  lemma ApplyPreservesValid(s: Schedule, c: Command)
    requires Valid(s)
    ensures Valid(Apply(s, c))
  {
  }

  /** Whatever the panel sends, a valid schedule stays valid. */
  lemma SigChangePreservesValid(s: Schedule, sig: Sig, offset: uint32)
    ensures Valid(s) ==> Valid(SigChange(s, sig, offset))
  {
    if Valid(s) && sig.isBool && sig.boolValue {
      var b := ButtonNumber(sig.number, offset);
      if Decode(b).Some? {
        ApplyPreservesValid(s, Decode(b).value);
      }
    }
  }

  /** Toggling the same day twice restores the schedule. */
  lemma {:induction false} ToggleTwiceRestores(s: Schedule, w: Which, d: DayIndex)
    ensures Apply(Apply(s, ToggleDay(w, d)), ToggleDay(w, d)) == s
  {
    var e := s.Get(w);
    assert e.days[d := !e.days[d]][d := e.days[d]] == e.days;
    assert EditEvent(EditEvent(e, ToggleDay(w, d)), ToggleDay(w, d)) == e;
  }

  /** On a valid schedule the step buttons count modulo 24 and 60 in the direction their names say. */
  lemma StepsAreModular(s: Schedule, w: Which)
    requires Valid(s)
    ensures Apply(s, HourUp(w)).Get(w).hour as int == (s.Get(w).hour as int + 1) % 24
    ensures Apply(s, HourDown(w)).Get(w).hour as int == (s.Get(w).hour as int + 23) % 24
    ensures Apply(s, MinuteUp(w)).Get(w).minute as int == (s.Get(w).minute as int + 1) % 60
    ensures Apply(s, MinuteDown(w)).Get(w).minute as int == (s.Get(w).minute as int + 59) % 60
  {
    Counters.IncreaseIsModular(s.Get(w).hour, LIMIT_HOUR_MAX);
    Counters.DecreaseIsModular(s.Get(w).hour, LIMIT_HOUR_MAX);
    Counters.IncreaseIsModular(s.Get(w).minute, LIMIT_MINUTE_MAX);
    Counters.DecreaseIsModular(s.Get(w).minute, LIMIT_MINUTE_MAX);
  }

  /** On a valid schedule, stepping an hour up then down (or down then up) restores it. */
  lemma HourStepsAreInverse(s: Schedule, w: Which)
    requires Valid(s)
    ensures Apply(Apply(s, HourUp(w)), HourDown(w)) == s
    ensures Apply(Apply(s, HourDown(w)), HourUp(w)) == s
  {
    Counters.DecreaseUndoesIncrease(s.Get(w).hour, LIMIT_HOUR_MAX);
    Counters.IncreaseUndoesDecrease(s.Get(w).hour, LIMIT_HOUR_MAX);
  }

  /** On a valid schedule, stepping a minute up then down (or down then up) restores it. */
  lemma MinuteStepsAreInverse(s: Schedule, w: Which)
    requires Valid(s)
    ensures Apply(Apply(s, MinuteUp(w)), MinuteDown(w)) == s
    ensures Apply(Apply(s, MinuteDown(w)), MinuteUp(w)) == s
  {
    Counters.DecreaseUndoesIncrease(s.Get(w).minute, LIMIT_MINUTE_MAX);
    Counters.IncreaseUndoesDecrease(s.Get(w).minute, LIMIT_MINUTE_MAX);
  }
}

=== FILE: evaluator.dfy ===
/**
  `TimerCheck`: the minute-by-minute comparison of the wall clock with the
  two events. The clock reading is a parameter (a .NET `DayOfWeek`, an
  hour and a minute); the result says which events matched, and `Tick`
  turns that into the callbacks run.
 */
module Evaluator {
  import opened Events
  import Editor

  /** .NET `DayOfWeek`: 0 is Sunday, 1 is Monday, ..., 6 is Saturday. */
  type DayOfWeek = d: int | 0 <= d <= 6

  const SUNDAY: DayOfWeek := 0
  const MONDAY: DayOfWeek := 1
  const SATURDAY: DayOfWeek := 6

  /** The remap to the Monday-first index of the day mask. */
  function MondayFirst(dow: DayOfWeek): (i: DayIndex)
    ensures (i + 1) % 7 == dow
  {
    if dow == 0 then 6 else dow - 1
  }

  /** The .NET day of a Monday-first index. */
  function SundayFirst(i: DayIndex): (dow: DayOfWeek)
    ensures MondayFirst(dow) == i
  {
    (i + 1) % 7
  }

  /** The remap is a bijection of the week, with Sunday last. */
  lemma MondayFirstIsBijective(dow: DayOfWeek)
    ensures SundayFirst(MondayFirst(dow)) == dow
    ensures MondayFirst(SUNDAY) == 6 && MondayFirst(MONDAY) == 0 && MondayFirst(SATURDAY) == 5
  {
  }

  /** Which events matched in one pass. */
  datatype Fired = Fired(start: bool, stop: bool) {
    function Of(w: Which): bool {
      if w.Start? then start else stop
    }
  }

  /** The match rule for one event: active on the day and exactly at the hour and minute. */
  predicate Matches(e: Event, day: DayIndex, hour: int, minute: int) {
    e.days[day] && e.hour as int == hour && e.minute as int == minute
  }

  /** One evaluator pass: each event is checked on its own. */
  function Evaluate(s: Schedule, dow: DayOfWeek, hour: int, minute: int): (f: Fired)
    ensures f.start <==> s.start.days[(dow + 6) % 7] && s.start.hour as int == hour && s.start.minute as int == minute
    ensures f.stop <==> s.stop.days[(dow + 6) % 7] && s.stop.hour as int == hour && s.stop.minute as int == minute
  {
    var day := MondayFirst(dow);
    Fired(Matches(s.start, day, hour, minute), Matches(s.stop, day, hour, minute))
  }

  /** An event fires at its own time on every day it is active on. */
  lemma FiresAtConfiguredMoment(s: Schedule, w: Which, d: DayIndex)
    requires s.Get(w).days[d]
    ensures Evaluate(s, SundayFirst(d), s.Get(w).hour as int, s.Get(w).minute as int).Of(w)
  {
  }

  /** On any one day an event fires in at most one minute. */
  lemma FiresInOneMinutePerDay(s: Schedule, w: Which, dow: DayOfWeek, h1: int, m1: int, h2: int, m2: int)
    requires Evaluate(s, dow, h1, m1).Of(w) && Evaluate(s, dow, h2, m2).Of(w)
    ensures h1 == h2 && m1 == m2
  {
  }

  /** Replacing one event never changes whether the other one fires. */
  lemma EventsFireIndependently(s: Schedule, w: Which, e: Event, dow: DayOfWeek, hour: int, minute: int)
    ensures Evaluate(s.Set(w, e), dow, hour, minute).Of(w.Other()) == Evaluate(s, dow, hour, minute).Of(w.Other())
  {
  }

  /** Start and stop may both fire in one pass when they are configured alike. */
  lemma BothMayFire(e: Event, d: DayIndex)
    requires e.days[d]
    ensures Evaluate(Schedule(e, e), SundayFirst(d), e.hour as int, e.minute as int) == Fired(true, true)
  {
  }

  /** A schedule with no active day, such as the initial one, never fires. */
  lemma NoDaysNeverFires(s: Schedule, dow: DayOfWeek, hour: int, minute: int)
    requires forall i :: 0 <= i < LIMIT_DAYS ==> !s.start.days[i] && !s.stop.days[i]
    ensures Evaluate(s, dow, hour, minute) == Fired(false, false)
  {
    assert !s.start.days[MondayFirst(dow)];
  }

  /**
    Toggling day `d` of an event changes the passes of that day only, and
    there it switches the event's firing at its own time on or off.
   */
  lemma ToggleMovesFiringOfThatDay(s: Schedule, w: Which, d: DayIndex, dow: DayOfWeek, hour: int, minute: int)
    ensures MondayFirst(dow) != d ==>
      Evaluate(Editor.Apply(s, Editor.ToggleDay(w, d)), dow, hour, minute) == Evaluate(s, dow, hour, minute)
    ensures Evaluate(Editor.Apply(s, Editor.ToggleDay(w, d)), SundayFirst(d), s.Get(w).hour as int, s.Get(w).minute as int).Of(w)
      == !s.Get(w).days[d]
  {
  }

  /** Whether a start and a stop action are registered (`null` is absent). */
  datatype Callbacks = Callbacks(onStart: bool, onStop: bool)

  /**
    The callbacks one pass of the timer runs, in order, when an absent
    callback is a no-op.
   */
  function Tick(s: Schedule, cb: Callbacks, dow: DayOfWeek, hour: int, minute: int): (invoked: seq<Which>)
    ensures Start in invoked <==> Evaluate(s, dow, hour, minute).start && cb.onStart
    ensures Stop in invoked <==> Evaluate(s, dow, hour, minute).stop && cb.onStop
    ensures |invoked| <= 2 && (|invoked| == 2 ==> invoked == [Start, Stop])
  {
    var f := Evaluate(s, dow, hour, minute);
    (if f.start && cb.onStart then [Start] else []) + (if f.stop && cb.onStop then [Stop] else [])
  }

  /** How a pass of `TimerCheck` as written ends. */
  datatype TickOutcome =
    | Completed(invoked: seq<Which>)
    /** A null action was invoked; the pass ended there. */
    | Faulted(invoked: seq<Which>)

  /**
    `TimerCheck` as written: a matched event whose action is null is
    invoked anyway, which throws and abandons the rest of the pass.
   */
  function TickAsWritten(s: Schedule, cb: Callbacks, dow: DayOfWeek, hour: int, minute: int): (r: TickOutcome)
    ensures var f := Evaluate(s, dow, hour, minute);
      r.Faulted? <==> (f.start && !cb.onStart) || (f.stop && !cb.onStop)
    ensures var f := Evaluate(s, dow, hour, minute);
      f.start && !cb.onStart ==> r == Faulted([])
    ensures var f := Evaluate(s, dow, hour, minute);
      !(f.start && !cb.onStart) && f.stop && !cb.onStop ==> r == Faulted(if f.start then [Start] else [])
    ensures r.Completed? ==> r.invoked == Tick(s, cb, dow, hour, minute)
  {
    var f := Evaluate(s, dow, hour, minute);
    if f.start && !cb.onStart then Faulted([])
    else
      var before := if f.start then [Start] else [];
      if f.stop && !cb.onStop then Faulted(before)
      else Completed(before + if f.stop then [Stop] else [])
  }

  /** With both actions registered the pass as written runs exactly the callbacks of `Tick`. */
  lemma TickAsWrittenAgreesWhenRegistered(s: Schedule, cb: Callbacks, dow: DayOfWeek, hour: int, minute: int)
    requires cb.onStart && cb.onStop
    ensures TickAsWritten(s, cb, dow, hour, minute) == Completed(Tick(s, cb, dow, hour, minute))
  {
  }

  /**
    The pass as written loses the registered stop action: start and stop
    both match Monday 06:30, no start action is set, and the null start
    action throws before the stop check runs. `Tick` runs the stop action.
   */
  lemma NullStartActionSkipsStop()
    ensures var e := Event([true, false, false, false, false, false, false], 6, 30);
      && TickAsWritten(Schedule(e, e), Callbacks(false, true), MONDAY, 6, 30) == Faulted([])
      && Tick(Schedule(e, e), Callbacks(false, true), MONDAY, 6, 30) == [Stop]
  {
  }
}

=== FILE: events.dfy ===
/**
  The data model of the weekly schedule: the `SchedulerEvent` record (a
  Monday-first day mask plus an hour and a minute held in `uint` fields)
  and the fixed pair of events the scheduler owns (index 0 is start,
  index 1 is stop).
 */
module Events {

  /** The C# `uint`: a 32-bit unsigned integer. */
  newtype uint32 = x: int | 0 <= x < 0x1_0000_0000

  const TWO_TO_32: int := 0x1_0000_0000

  /** Number of slots in a day mask (`LIMIT_DAYS`). */
  const LIMIT_DAYS: int := 7
  /** Largest hour the editor keeps (`LIMIT_HOUR_MAX`). */
  const LIMIT_HOUR_MAX: uint32 := 23
  /** Largest minute the editor keeps (`LIMIT_MINUTE_MAX`). */
  const LIMIT_MINUTE_MAX: uint32 := 59

  /** Index into a day mask: 0 is Monday, 6 is Sunday. */
  type DayIndex = i: int | 0 <= i < LIMIT_DAYS

  /** The `bool[LIMIT_DAYS]` day mask, Monday first. */
  type DayMask = s: seq<bool> | |s| == LIMIT_DAYS
    witness [false, false, false, false, false, false, false]

  /** One `SchedulerEvent`. */
  datatype Event = Event(days: DayMask, hour: uint32, minute: uint32)

  /** Which of the two events a command or a callback concerns (`EVENT_START` is 0, `EVENT_STOP` is 1). */
  datatype Which = Start | Stop {
    /** The other event of the pair. */
    function Other(): (o: Which)
      ensures o != this
    {
      if Start? then Stop else Start
    }
  }

  /** The `events` array of the scheduler: always exactly a start and a stop event. */
  datatype Schedule = Schedule(start: Event, stop: Event) {

    function Get(w: Which): Event {
      if w.Start? then start else stop
    }

    /** Replaces one event and keeps the other. */
    function Set(w: Which, e: Event): (r: Schedule)
      ensures r.Get(w) == e
      ensures r.Get(w.Other()) == Get(w.Other())
    {
      if w.Start? then this.(start := e) else this.(stop := e)
    }
  }

  /** An event whose time fields are within the editor's limits. */
  predicate ValidEvent(e: Event) {
    e.hour <= LIMIT_HOUR_MAX && e.minute <= LIMIT_MINUTE_MAX
  }

  predicate Valid(s: Schedule) {
    ValidEvent(s.start) && ValidEvent(s.stop)
  }

  /** What `new bool[LIMIT_DAYS]` and the zeroed `uint` fields give an event. */
  const DefaultEvent: Event := Event([false, false, false, false, false, false, false], 0, 0)

  /** The pair as `Init` leaves it before anything is loaded. */
  const DefaultSchedule: Schedule := Schedule(DefaultEvent, DefaultEvent)
}

=== FILE: feedback.dfy ===
/**
  The text `PanelFeedback` renders for an event's time:
  `String.Format("{0}:{1:D2}", hour, minute)`, that is the hour in
  decimal without padding, a colon, and the minute in decimal padded
  with zeros to at least two digits. A parser for that text serves as
  the formatter's inverse.
 */
module Feedback {
  import opened Wrappers
  import opened Events
  import Editor

  predicate IsDigit(c: char) {
    '0' <= c <= '9'
  }

  predicate AllDigits(s: string) {
    forall i :: 0 <= i < |s| ==> IsDigit(s[i])
  }

  function DigitChar(d: nat): (c: char)
    requires d < 10
    ensures IsDigit(c)
  {
    ['0', '1', '2', '3', '4', '5', '6', '7', '8', '9'][d]
  }

  function DigitValue(c: char): (d: nat)
    requires IsDigit(c)
    ensures d < 10 && DigitChar(d) == c
  {
    (c as int - '0' as int)
  }

  /** The `{0}` rendering of a non-negative integer: decimal, no leading zeros. */
  function DecimalString(n: nat): (s: string)
    ensures 1 <= |s| && AllDigits(s)
    ensures |s| > 1 ==> s[0] != '0'
    ensures n < 10 <==> |s| == 1
  {
    if n < 10 then [DigitChar(n)] else DecimalString(n / 10) + [DigitChar(n % 10)]
  }

  /** The value of a string of decimal digits, leading zeros allowed. */
  function DecimalValue(s: string): nat
    requires AllDigits(s)
  {
    if |s| == 0 then 0 else DecimalValue(s[..|s| - 1]) * 10 + DigitValue(s[|s| - 1])
  }

  lemma {:induction false} DecimalRoundTrip(n: nat)
    ensures DecimalValue(DecimalString(n)) == n
  {
    if n >= 10 {
      var s := DecimalString(n);
      assert s[..|s| - 1] == DecimalString(n / 10);
      DecimalRoundTrip(n / 10);
    }
  }

  /** The `{0:D2}` rendering: at least two digits, zero-padded on the left. */
  function Padded2(n: nat): (s: string)
    ensures 2 <= |s| && AllDigits(s)
    ensures n < 100 ==> |s| == 2
    ensures |s| > 2 ==> s[0] != '0'
    ensures DecimalValue(s) == n
  {
    DecimalRoundTrip(n);
    var d := DecimalString(n);
    if |d| < 2 then
      var p := ['0'] + d;
      assert p[..1] == ['0'];
      p
    else d
  }

  /** The "H:MM" text shown for an event's time. */
  function TimeText(hour: uint32, minute: uint32): (s: string)
    ensures 4 <= |s|
    ensures hour <= LIMIT_HOUR_MAX && minute <= LIMIT_MINUTE_MAX ==> |s| <= 5
    ensures minute < 100 ==> s[|s| - 3] == ':'
    ensures hour <= LIMIT_HOUR_MAX && minute <= LIMIT_MINUTE_MAX ==> |s| == if hour < 10 then 4 else 5
    ensures s[0] == '0' ==> s[1] == ':'
  {
    DecimalString(hour as nat) + [':'] + Padded2(minute as nat)
  }

  /** The text before and after the first colon, if there is one. */
  function SplitAtColon(s: string): (r: Option<(string, string)>)
    ensures r.Some? ==> s == r.value.0 + [':'] + r.value.1
  {
    if |s| == 0 then None
    else if s[0] == ':' then Some(([], s[1..]))
    else
      match SplitAtColon(s[1..])
      case None => None
      case Some((a, b)) => Some(([s[0]] + a, b))
  }

  /** Reads "H:MM" text back into an hour and a minute. */
  function ParseTimeText(s: string): (r: Option<(nat, nat)>)
  {
    match SplitAtColon(s)
    case None => None
    case Some((a, b)) =>
      if 1 <= |a| && 2 <= |b| && AllDigits(a) && AllDigits(b) then Some((DecimalValue(a), DecimalValue(b)))
      else None
  }

  lemma {:induction false} SplitAfterDigits(a: string, b: string)
    requires AllDigits(a)
    ensures SplitAtColon(a + [':'] + b) == Some((a, b))
  {
    if |a| > 0 {
      assert (a + [':'] + b)[1..] == a[1..] + [':'] + b;
      SplitAfterDigits(a[1..], b);
      assert [a[0]] + a[1..] == a;
    }
  }

  /** The shown text determines the event's time: parsing it gives the hour and minute back. */
  lemma TimeTextRoundTrip(hour: uint32, minute: uint32)
    ensures ParseTimeText(TimeText(hour, minute)) == Some((hour as nat, minute as nat))
  {
    DecimalRoundTrip(hour as nat);
    SplitAfterDigits(DecimalString(hour as nat), Padded2(minute as nat));
  }

  /** Different times are never shown as the same text. */
  lemma TimeTextInjective(h1: uint32, m1: uint32, h2: uint32, m2: uint32)
    ensures TimeText(h1, m1) == TimeText(h2, m2) ==> h1 == h2 && m1 == m2
  {
    TimeTextRoundTrip(h1, m1);
    TimeTextRoundTrip(h2, m2);
  }

  /** The renderings the operator sees for a few times. */
  lemma TimeTextExamples()
    ensures TimeText(6, 5) == "6:05"
    ensures TimeText(23, 0) == "23:00"
    ensures TimeText(23, 59) == "23:59"
    ensures TimeText(0, 0) == "0:00"
  {
  }

  // The `SerialJoins` map as written: both texts are sent to join 1.
  const START_TEXT: uint32 := 1
  const STOP_TEXT_AS_WRITTEN: uint32 := 1
  /** The join the stop text evidently belongs on. */
  const STOP_TEXT: uint32 := 2

  /** The panel's serial joins after writing the start text and then the stop text. */
  function SerialWrites(s: Schedule, offset: uint32, startJoin: uint32, stopJoin: uint32): map<uint32, string> {
    map[Editor.PanelJoin(startJoin, offset) := TimeText(s.start.hour, s.start.minute)]
       [Editor.PanelJoin(stopJoin, offset) := TimeText(s.stop.hour, s.stop.minute)]
  }

  /** The time texts of `PanelFeedback` as written: the stop text lands on the start text's join. */
  function SerialFeedbackAsWritten(s: Schedule, offset: uint32): (m: map<uint32, string>)
    ensures m.Keys == {Editor.PanelJoin(START_TEXT, offset)}
    ensures m[Editor.PanelJoin(START_TEXT, offset)] == TimeText(s.stop.hour, s.stop.minute)
  {
    SerialWrites(s, offset, START_TEXT, STOP_TEXT_AS_WRITTEN)
  }

  /** As written, a start time that differs from the stop time is shown on no join at all. */
  lemma StartTextIsOverwritten(s: Schedule, offset: uint32)
    requires s.start.hour != s.stop.hour || s.start.minute != s.stop.minute
    ensures forall j :: j in SerialFeedbackAsWritten(s, offset) ==>
      SerialFeedbackAsWritten(s, offset)[j] != TimeText(s.start.hour, s.start.minute)
  {
    if TimeText(s.stop.hour, s.stop.minute) == TimeText(s.start.hour, s.start.minute) {
      TimeTextInjective(s.stop.hour, s.stop.minute, s.start.hour, s.start.minute);
    }
  }

  /**
    The time texts with the stop text on its own join: each join's text
    reads back as its own event's time.
   */
  function SerialFeedback(s: Schedule, offset: uint32): (m: map<uint32, string>)
    ensures Editor.PanelJoin(START_TEXT, offset) != Editor.PanelJoin(STOP_TEXT, offset)
    ensures m.Keys == {Editor.PanelJoin(START_TEXT, offset), Editor.PanelJoin(STOP_TEXT, offset)}
    ensures m[Editor.PanelJoin(START_TEXT, offset)] == TimeText(s.start.hour, s.start.minute)
    ensures m[Editor.PanelJoin(STOP_TEXT, offset)] == TimeText(s.stop.hour, s.stop.minute)
    ensures ParseTimeText(m[Editor.PanelJoin(START_TEXT, offset)]) == Some((s.start.hour as nat, s.start.minute as nat))
    ensures ParseTimeText(m[Editor.PanelJoin(STOP_TEXT, offset)]) == Some((s.stop.hour as nat, s.stop.minute as nat))
  {
    TimeTextRoundTrip(s.start.hour, s.start.minute);
    TimeTextRoundTrip(s.stop.hour, s.stop.minute);
    Editor.ButtonNumberOfPanelJoin(START_TEXT, offset);
    Editor.ButtonNumberOfPanelJoin(STOP_TEXT, offset);
    SerialWrites(s, offset, START_TEXT, STOP_TEXT)
  }
}

=== FILE: scheduler.dfy ===
/**
  The `Scheduler` object as a value: its event pair, its timer and its
  two actions, with the public entry points that change them. File
  contents, the panel and the clock are parameters.
 */
module Facade {
  import opened Wrappers
  import opened Events
  import Editor
  import Evaluator
  import TimerControl

  datatype Scheduler = Scheduler(
    schedule: Schedule,
    timer: TimerControl.Timer,
    callbacks: Evaluator.Callbacks)

  /**
    `Load`: `read` is the deserialized file when reading and parsing
    succeeded and `None` when either threw. The pair is replaced only on
    success; a failure keeps everything as it was.
   */
  function Load(sc: Scheduler, read: Option<Schedule>): (r: (Scheduler, bool))
    ensures r.1 <==> read.Some?
    ensures r.1 ==> r.0 == sc.(schedule := read.value)
    ensures !r.1 ==> r.0 == sc
  {
    match read
    case Some(loaded) => (sc.(schedule := loaded), true)
    case None => (sc, false)
  }

  /**
    The constructor (`Init`): default events and no actions, then an
    attempted `Load`, then `Start`.
   */
  function Init(read: Option<Schedule>): (r: Scheduler)
    ensures r.timer == TimerControl.Timer(true)
    ensures r.callbacks == Evaluator.Callbacks(false, false)
    ensures read.Some? ==> r.schedule == read.value
    ensures read.None? ==> r.schedule == DefaultSchedule
  {
    var initial := Scheduler(DefaultSchedule, TimerControl.NoTimer, Evaluator.Callbacks(false, false));
    var loaded := Load(initial, read).0;
    loaded.(timer := TimerControl.Start(loaded.timer).timer)
  }

  /** `SetCallbacks`: each argument says whether that action is non-null. */
  function SetCallbacks(sc: Scheduler, onStart: bool, onStop: bool): (r: Scheduler)
    ensures r.callbacks.onStart == onStart && r.callbacks.onStop == onStop
    ensures r.schedule == sc.schedule && r.timer == sc.timer
  {
    sc.(callbacks := Evaluator.Callbacks(onStart, onStop))
  }

  /** A panel signal: only the schedule can change. */
  function Press(sc: Scheduler, sig: Editor.Sig, offset: uint32): (r: Scheduler)
    ensures r.timer == sc.timer && r.callbacks == sc.callbacks
    ensures Valid(sc.schedule) ==> Valid(r.schedule)
    ensures r.schedule == Editor.SigChange(sc.schedule, sig, offset)
  {
    Editor.SigChangePreservesValid(sc.schedule, sig, offset);
    sc.(schedule := Editor.SigChange(sc.schedule, sig, offset))
  }

  /** A freshly constructed scheduler with nothing loaded is valid and never fires. */
  lemma InitWithoutFileIsQuiet(dow: Evaluator.DayOfWeek, hour: int, minute: int)
    ensures Valid(Init(None).schedule)
    ensures Evaluator.Evaluate(Init(None).schedule, dow, hour, minute) == Evaluator.Fired(false, false)
  {
    Evaluator.NoDaysNeverFires(Init(None).schedule, dow, hour, minute);
  }

  /**
    The constructor starts the timer while no action is set, and the
    timer's first pass is due at once, so it can run before `SetCallbacks`:
    when the loaded start event matches that moment, that pass as written
    throws.
   */
  lemma FirstPassAfterInitMayFault(loaded: Schedule, dow: Evaluator.DayOfWeek)
    requires loaded.start.days[Evaluator.MondayFirst(dow)]
    ensures var sc := Init(Some(loaded));
      Evaluator.TickAsWritten(sc.schedule, sc.callbacks, dow, loaded.start.hour as int, loaded.start.minute as int).Faulted?
  {
  }

  /** The same first pass with absent actions treated as no-ops runs nothing and cannot fail. */
  lemma FirstPassAfterInitIsSilent(read: Option<Schedule>, dow: Evaluator.DayOfWeek, hour: int, minute: int)
    ensures var sc := Init(read);
      Evaluator.Tick(sc.schedule, sc.callbacks, dow, hour, minute) == []
  {
  }
}

=== FILE: timer.dfy ===
/**
  `Start` and `Stop` of the scheduler's polling timer. The timer is
  either absent (never created) or present and running or stopped;
  `Start` creates it the first time and resets it afterwards, `Stop`
  stops it when there is one.
 */
module TimerControl {

  datatype Timer = NoTimer | Timer(running: bool)

  /** The new timer state, the method's return value, and whether a timer was constructed. */
  datatype Step = Step(timer: Timer, result: bool, created: bool)

  /** `Start`: construct the timer if there is none, otherwise `Reset` it. */
  function Start(t: Timer): (r: Step)
    ensures r.result && r.timer == Timer(true)
    ensures r.created <==> t.NoTimer?
  {
    match t
    case NoTimer => Step(Timer(true), true, true)
    case Timer(_) => Step(Timer(true), true, false)
  }

  /** `Stop`: stop the timer if there is one; report whether there was. */
  function Stop(t: Timer): (r: Step)
    ensures r.result <==> t.Timer?
    ensures !r.created
    ensures r.timer == if t.Timer? then Timer(false) else NoTimer
  {
    match t
    case NoTimer => Step(NoTimer, false, false)
    case Timer(_) => Step(Timer(false), true, false)
  }

  datatype Op = StartOp | StopOp

  function Apply(t: Timer, op: Op): Step {
    if op == StartOp then Start(t) else Stop(t)
  }

  /** The timer after a sequence of calls. */
  function After(t: Timer, ops: seq<Op>): Timer {
    if |ops| == 0 then t else Apply(After(t, ops[..|ops| - 1]), ops[|ops| - 1]).timer
  }

  /** How many timers a sequence of calls constructs. */
  function Creations(t: Timer, ops: seq<Op>): nat {
    if |ops| == 0 then 0
    else Creations(t, ops[..|ops| - 1]) + if Apply(After(t, ops[..|ops| - 1]), ops[|ops| - 1]).created then 1 else 0
  }

  /** Once a timer exists it is never discarded. */
  lemma {:induction false} TimerPersists(t: Timer, ops: seq<Op>)
    requires t.Timer?
    ensures After(t, ops).Timer?
  {
    if |ops| > 0 {
      TimerPersists(t, ops[..|ops| - 1]);
    }
  }

  /** From no timer, a timer exists exactly when `Start` was called. */
  lemma {:induction false} TimerExistsIffStarted(ops: seq<Op>)
    ensures After(NoTimer, ops).Timer? <==> StartOp in ops
  {
    if |ops| > 0 {
      var pre := ops[..|ops| - 1];
      TimerExistsIffStarted(pre);
      assert ops == pre + [ops[|ops| - 1]];
    }
  }

  /** Any sequence of calls constructs at most one timer, and none if one already existed. */
  lemma {:induction false} AtMostOneTimer(t: Timer, ops: seq<Op>)
    ensures Creations(t, ops) == if t.NoTimer? && After(t, ops).Timer? then 1 else 0
  {
    if |ops| > 0 {
      var pre := ops[..|ops| - 1];
      AtMostOneTimer(t, pre);
      if t.Timer? {
        TimerPersists(t, pre);
      }
      if After(t, pre).Timer? {
        assert After(t, ops).Timer?;
      }
    }
  }

  /** The `i`-th call's return value. */
  function ResultAt(t: Timer, ops: seq<Op>, i: nat): bool
    requires i < |ops|
  {
    Apply(After(t, ops[..i]), ops[i]).result
  }

  /** From no timer, `Stop` fails exactly when no `Start` came before it. */
  lemma StopFailsIffNeverStarted(ops: seq<Op>, i: nat)
    requires i < |ops| && ops[i] == StopOp
    ensures !ResultAt(NoTimer, ops, i) <==> StartOp !in ops[..i]
  {
    TimerExistsIffStarted(ops[..i]);
  }

  /** After at least one call, the timer runs exactly when the last call was `Start`. */
  lemma RunningIffLastStarted(t: Timer, ops: seq<Op>)
    requires |ops| > 0
    ensures After(t, ops).Timer? && After(t, ops).running <==> ops[|ops| - 1] == StartOp
  {
  }

  /** Calling `Start` twice is the same as calling it once, and never constructs a second timer. */
  lemma StartIsIdempotent(t: Timer)
    ensures Start(Start(t).timer).timer == Start(t).timer
    ensures !Start(Start(t).timer).created
  {
  }
}

=== FILE: wrappers.dfy ===
/** An optional value used wherever the scheduler may produce nothing. */
module Wrappers {

  /** An optional value: `None` stands for "no result". */
  datatype Option<+T> = None | Some(value: T)
}
